=== FILE: README.md ===
# Grid-world navigation, modelled in Dafny

This project models the grid-world navigation package `problems/grid_world`. It has four parts.

- **Position.** An integer (row, col) value with structural equality. It lists its four
  neighbours in the fixed order up, down, left, right, and prints as `"(row,col)"`.
- **GridWorld.** The grid's dimensions, a set of wall cells, a start and a goal. It answers
  bounds, passability and goal queries, and supports wall placement and removal.
- **Agent.** A cursor that moves one cell in a named direction, but only onto an in-bounds
  cell that is not a wall. `reset` teleports it.
- **Pathfinder.** Breadth-first search (`find_path`). It uses a FIFO queue, marks cells
  visited when they are discovered, and keeps a parent map that the path is rebuilt from. It
  also counts popped cells in `nodes_expanded`.

Layout, one module per source file:

| file | module | source |
|---|---|---|
| `wrappers.dfy` | `Wrappers` | `Option`, the model of Python's `None` |
| `position.dfy` | `Positions` | `position.py` |
| `grid_world.dfy` | `Grids` | `grid_world.py` |
| `walks.dfy` | `Walks` | what a path is: the moves the search may make, shared by agent and search |
| `agent.dfy` | `Agents` | `agent.py` |
| `path.dfy` | `Pathfinding` | `path.py` |
| `demo.dfy` | `Demo` | what `demo.py` computes: a search, then an agent sent along the result |

Modelling choices:

- `Position` is a datatype. Its constructor stores both fields unchanged, with no bounds
  check, so negative values are allowed. Datatype equality is structural, and sets and maps
  of positions use it directly. This stands in for `__eq__` and `__hash__`.
- `GridWorld` is an immutable value. `walls` is a `set<Position>`. `PlaceWall` and
  `RemoveWall` return the updated world. `Passable` and `IsGoal` are the one-line predicates
  of the source: "not in `walls`" and "equal to `goal`". `Passable` never looks at the bounds.
- An agent stores only its position `at`. The world is an argument of every agent operation that reads it (`NewAgent`, `CanMoveTo`,
  `Step`, `Run`).
  The source's agent holds a shared reference to a world that others may edit, so it always
  sees the current walls; passing the current world models that. `Step` returns the success
  flag together with the new agent.
- The direction is a string token, as in the source. `Target` models the `if`/`elif` chain.
- `FindPath` is a method. It keeps a sequence queue, a visited set and a parent map from each
  cell to `Option<Position>`, where the start maps to `None`. Ghost state adds each
  discovered cell's BFS level (`dist`) and the set of popped cells (`closed`). The loop body
  is split into `ExpandHead` (one pop and expansion), `FoundGoal` (the round that pops the
  goal), `ExpandNeighbors` (the `for` loop over `neighbors_4`), `ExpandOne` (one iteration of
  it) and `Discover` (the three updates for one new cell). `nodes_expanded` becomes a second result, since it only ever reflects
  the latest call.
- Path reconstruction follows the source. It appends cells along the parent links from the
  goal back to the start, then reverses them.

Two consequences of how the search treats its start cell are easy to miss. The model
proves both.

- The start cell is never checked. It is enqueued and popped even when it is a wall or out
  of bounds. Its in-bounds, passable neighbours are then discovered normally
  (`problems/grid_world/path.py:42-44`, `:63-71`). So a walled start can still reach its
  open neighbours (`Walks.WalledStartStillMoves`).
- Walling in the goal's four neighbours blocks every start except the goal itself and those
  four wall cells (`Walks.EnclosedGoalUnreachable`). A start placed on one of the enclosing
  walls steps straight into the goal when the goal is open
  (`Walks.StartOnEnclosingWallReachesGoal`).

`GridWorld.__init__` does not validate `rows` or `cols`, so neither does `NewWorld`. The
`rows * cols` bound on `nodes_expanded` holds whenever the start is in bounds, and that
already forces both dimensions to be positive.

## Model

| member | source | states |
|---|---|---|
| `Positions.Neighbors4` | problems/grid_world/position.py:24-36 | exactly four positions, in the order (r-1,c), (r+1,c), (r,c-1), (r,c+1); pairwise distinct; each at Manhattan distance 1 and 4-adjacent to the source |
| `Positions.NeighborsAreAdjacent` | problems/grid_world/position.py:31-36 | a position is among the four neighbours if and only if it differs by one in exactly one coordinate |
| `Positions.AdjacentIffManhattanOne` | problems/grid_world/tests/test_bfs.py:111-118 | "differ by exactly 1 in exactly one of row/col" is the same as Manhattan distance 1 |
| `Positions.StructuralEquality` | problems/grid_world/position.py:50-59 | two positions are equal iff both row and col match; equal positions collapse in a set to one element, different ones give two |
| `Positions.ReprRoundTrip` | problems/grid_world/position.py:61-68 | the "(row,col)" string form, with Python's decimal integer formatting including a minus sign and with no limit on the number of digits, parses back to the same position, so it determines the position |
| `Positions.ReprExample` | problems/grid_world/tests/test_position.py:57-61 | position (2,3) prints as "(2,3)" |
| `Walks.DefaultWorldIsSolvable` | problems/grid_world/grid_world.py:18-33 | with positive dimensions, the constructor's default start (0,0) and goal (rows-1, cols-1) are in bounds whatever the walls; with the default empty walls the goal is reachable from the start along a path of rows + cols - 1 cells |
| `Grids.PassableIgnoresBounds` | problems/grid_world/grid_world.py:47-57 | passability consults only the walls: an out-of-bounds non-wall is passable yet not enterable, an in-bounds wall is impassable; a cell is enterable iff in bounds and not a wall |
| `Grids.DefaultGoal` | problems/grid_world/grid_world.py:59-69 | with the default goal, `is_goal(p)` holds iff p is (rows-1, cols-1); in a 5×5 world (4,4) is the goal and (0,0) is not |
| `Grids.InBounds` | problems/grid_world/grid_world.py:35-45 | `in_bounds(p)` holds iff p is one of the rows × cols cells (0 ≤ row < rows, 0 ≤ col < cols) |
| `Grids.IsGoal` | problems/grid_world/grid_world.py:59-69 | `is_goal(p)` holds iff p has the goal's row and the goal's column, as position equality compares them |
| `Grids.CellsCard` | problems/grid_world/tests/test_bfs.py:95-97 | a rows × cols grid has exactly rows * cols cells, the bound the test compares `nodes_expanded` against |
| `Grids.PlaceWall` | problems/grid_world/grid_world.py:71-78 | afterwards p is impassable, every other cell's passability is unchanged, and rows, cols, start and goal are unchanged |
| `Grids.RemoveWall` | problems/grid_world/grid_world.py:80-87 | afterwards p is passable, every other cell's passability is unchanged, and rows, cols, start and goal are unchanged |
| `Grids.PlaceWallIdempotent` | problems/grid_world/grid_world.py:78 | placing a wall twice equals placing it once; placing an existing wall changes nothing |
| `Grids.RemoveWallIdempotent` | problems/grid_world/grid_world.py:87 | removing twice equals removing once; removing a non-wall changes nothing |
| `Grids.PlaceRemoveRoundTrip` | problems/grid_world/tests/test_grid_world.py:54-66 | placing then removing a wall on a free cell restores the world exactly; removing then re-placing a wall does too |
| `Grids.WallsDoNotAffectBounds` | problems/grid_world/grid_world.py:45-87 | wall edits never change whether any cell is in bounds |
| `Agents.NewAgentFollowsPath` | problems/grid_world/agent.py:15-24 | a new agent created without a position stands at the world's start, so running the tokens of any start-to-goal path leaves it at the goal after one move per step of the path |
| `Demo.AgentFollowsFoundPath` | problems/grid_world/demo.py:45-50 | searching from start to goal and running a new default agent on the found path's tokens: there is a result iff the goal is reachable, and it is that agent's run along a start-to-goal path, ending at the goal, with as many moves as a shortest path has |
| `Agents.CanMoveTo` | problems/grid_world/agent.py:26-36 | `can_move_to(p)` holds iff p is one of the grid's cells and not a wall |
| `Agents.Target` | problems/grid_world/agent.py:48-58 | "up", "down", "left", "right" target neighbours 0, 1, 2, 3 of the current cell; any other token targets nothing; every target is adjacent |
| `Agents.Step` | problems/grid_world/agent.py:38-65 | the step succeeds iff the token is recognised and the agent can move to its target; on success the agent is at the target, adjacent to where it was, in bounds and passable; on failure the agent is unchanged |
| `Agents.ResetBypassesStepChecks` | problems/grid_world/agent.py:67-74 | `reset` places the agent on any cell, even a wall or one outside the grid, while no sequence of steps from another cell ever reaches such a cell |
| `Agents.RunKeepsAgentOpen` | problems/grid_world/agent.py:61-65 | an agent on an open cell stays on open cells through any sequence of step tokens in a fixed world |
| `Agents.MovedAgentIsOpen` | problems/grid_world/agent.py:58-65 | after a sequence of steps in which at least one succeeded, the agent is in bounds and passable, wherever it started |
| `Agents.DirectionTo` | problems/grid_world/agent.py:48-56 | for adjacent p and q, the chosen token targets exactly q from p |
| `Agents.Directions` | problems/grid_world/agent.py:48-58 | one token per move of a walk, and each token targets exactly the walk's next cell from the current one |
| `Agents.FollowPath` | problems/grid_world/agent.py:38-65 | an agent at the start of any path, given that path's direction tokens, succeeds in every step and ends at the path's last cell |
| `Agents.Run` | problems/grid_world/agent.py:38-65 | running a token sequence moves the agent at most once per token, and an agent none of whose steps succeeded is where it started |
| `Walks.PathShape` | problems/grid_world/tests/test_bfs.py:99-118 | a path starts and ends where asked; consecutive cells differ by 1 in exactly one coordinate; every cell after the first is in bounds and passable |
| `Walks.PathLowerBound` | problems/grid_world/tests/test_bfs.py:39-40 | every path has at least Manhattan distance + 1 cells |
| `Walks.LastMoveIntoGoal` | problems/grid_world/path.py:63-71 | a path of two or more cells enters its goal from one of the goal's four neighbours; the goal is open; the neighbour is open unless it is the first cell |
| `Walks.ClosedGoalUnreachable` | problems/grid_world/path.py:63-74 | a goal other than the start that is a wall or out of bounds is unreachable |
| `Walks.EnclosedGoalUnreachable` | problems/grid_world/tests/test_bfs.py:64-76 | with all four neighbours of the goal walled, no start other than the goal and those four cells reaches it |
| `Walks.StartOnEnclosingWallReachesGoal` | problems/grid_world/path.py:42-71 | a start on one of the goal's neighbours reaches an open goal, even when that start is a wall |
| `Walks.WalledStartStillMoves` | problems/grid_world/path.py:42-71 | a start that is a wall still reaches an adjacent open cell |
| `Walks.Staircase` | problems/grid_world/tests/test_bfs.py:31-42 | the staircase route from a to b has Manhattan distance + 1 cells, starts at a, ends at b, and each cell is adjacent to the next |
| `Walks.StaircaseIsPath` | problems/grid_world/tests/test_bfs.py:19-42 | on a grid without walls the staircase between in-bounds cells is a path |
| `Pathfinding.FindPath` | problems/grid_world/path.py:26-74 | `nodes_expanded` ≥ 1, and ≤ rows * cols when the start is in bounds; `find_path(p, p)` is `[p]` with one node expanded, whatever p is; a result starts at start, ends at goal, moves between adjacent cells, has every cell after the first in bounds and passable, never repeats a cell, and is shortest; the result is `None` iff no path exists; a walled or out-of-bounds goal other than the start gives `None` |
| `Pathfinding.Reconstruct` | problems/grid_world/path.py:52-60 | following parent links from the goal and reversing gives a path from the start whose i-th cell is at BFS level i |
| `Pathfinding.ReversedChainIsPath` | problems/grid_world/path.py:56-59 | a parent chain read from the goal to the start, reversed, is a start-to-goal path with cell i at level i |
| `Pathfinding.Reverse` | problems/grid_world/path.py:59 | `path.reverse()`: same length, and cell i of the result is cell n-1-i of the input |
| `Pathfinding.Discoverable` | problems/grid_world/path.py:63-68 | the neighbours the loop will discover are exactly those in the list that are in bounds, passable and not yet visited |
| `Pathfinding.Discover` | problems/grid_world/path.py:69-71 | adding one new neighbour to visited, parent and queue keeps the BFS invariant; the queue grows by that cell at the back and its parent is the popped cell |
| `Pathfinding.ProgressSkip` | problems/grid_world/path.py:63-68 | a neighbour that fails the test leaves queue, visited and parents as they were, and the discovered cells so far are still exactly the discoverable ones |
| `Pathfinding.ProgressAdd` | problems/grid_world/path.py:63-71 | an open neighbour not yet visited in this expansion was not visited before it either (the four neighbours differ), so appending it keeps the discovered cells exactly the discoverable ones |
| `Pathfinding.ExpandOne` | problems/grid_world/path.py:63-71 | one iteration of the neighbour loop keeps the BFS invariant and extends the record of what the expansion has done by one neighbour |
| `Pathfinding.ExpandNeighbors` | problems/grid_world/path.py:63-71 | the queue grows, at the back and in up, down, left, right order, by exactly the in-bounds, passable, unvisited neighbours; these and only these become visited, each with the popped cell as parent; no earlier parent changes; every open neighbour is visited afterwards and the BFS invariant still holds |
| `Pathfinding.FoundGoal` | problems/grid_world/path.py:52-60 | when the goal is popped, the rebuilt path is a start-to-goal path without repeats and no path is shorter; at most rows * cols cells have been popped when the start is in bounds; when start equals goal the path is just the start, otherwise the goal is open |
| `Pathfinding.ExpandHead` | problems/grid_world/path.py:47-71 | popping and expanding a non-goal cell keeps the BFS invariant, closes exactly one more cell, and either discovers an in-bounds cell or shortens the queue |
| `Pathfinding.ExitCost` | problems/grid_world/path.py:42-71 | with levels as lower bounds and all unexpanded cells at level ≥ d, every path to an undiscovered cell makes more than d moves |
| `Pathfinding.LeavesThroughUnexpanded` | problems/grid_world/path.py:63-71 | a path leaving the discovered set does so from a discovered cell that is not yet expanded |
| `Pathfinding.ExpandedRegionIsClosed` | problems/grid_world/path.py:47-74 | once the queue is empty, every reachable cell has been discovered, so an undiscovered goal is unreachable |
| `Pathfinding.DiscoverNeighbor` | problems/grid_world/path.py:65-71 | marking a neighbour visited, setting its parent and enqueueing it preserves the BFS invariant |
| `Pathfinding.CountBound` | problems/grid_world/path.py:43-49 | the popped cells are discovered cells, all in bounds apart from the start, so at most rows * cols when the start is in bounds |
| `Pathfinding.ShortestOnOpenGrid` | problems/grid_world/tests/test_bfs.py:19-42 | on a grid without walls the search between in-bounds cells finds a path of exactly Manhattan distance + 1 cells (5 for (0,0)→(0,4) and for (0,0)→(2,2) on 5×5) |

## Left out

- `GridWorld.render` (`problems/grid_world/grid_world.py:89-126`) is console printing, so it is not modelled. The demo driver `problems/grid_world/demo.py` is modelled only in what it computes, a search followed by a new agent (`Demo.AgentFollowsFoundPath`); its fixed 5 by 7 maze, its printing and its pauses are not modelled.
- Comparing a `Position` with a non-`Position` object (`problems/grid_world/position.py:48-49`) cannot be expressed with Dafny's static types.
- `Positions.Repr`: CPython 3.11 and later raise `ValueError` when formatting an integer of more than 4300 digits (its integer-string conversion limit); `problems/grid_world/position.py:68` would fail there, while `IntToString` is total and this error path is not modelled.
- `__hash__` (`problems/grid_world/position.py:59`) is Dafny's built-in equality on datatype values. Its numeric hash value is not modelled.
- Aliasing of a caller-supplied `walls` set (`problems/grid_world/grid_world.py:31`) is not modelled. Walls are a value set, and `PlaceWall` and `RemoveWall` return a new world.
- `Pathfinding.FindPath`: determinism across repeated calls on the same world is not stated. A method contract cannot say which of several equally short paths comes back; the body's fixed neighbour order decides that.
- A wall edit that races with a search in progress is out of scope. The source is single-threaded, and the model's world is a value that cannot change during a call.
- The Pathfinder object and its persistent `nodes_expanded` field are not modelled. The counter is the second result of `FindPath`, which is all the field ever reflects.
- The regression toolkit (`problems/linear_regression`) and the tic-tac-toe game (`problems/tic-tac-toe`) are separate packages and are not part of this model.

=== FILE: agent.dfy ===
/** The agent: a cursor in a grid world that moves one cell at a time. The world is passed
    to every operation that reads it (`NewAgent`, `CanMoveTo`, `Step`, `Run`) rather than
    stored, so the agent always sees the world's current walls, as the source's shared
    reference does. */
module Agents {
  import opened Wrappers
  import opened Positions
  import opened Grids
  import opened Walks

  datatype Agent = Agent(at: Position)

  /** The outcome of `step`: whether the agent moved, and the agent afterwards. */
  datatype StepResult = StepResult(moved: bool, agent: Agent)

  /** A new agent stands at `pos` when one is given, otherwise at the world's start. */
  function NewAgent(w: GridWorld, pos: Option<Position>): (a: Agent)
    ensures pos.Some? ==> a.at == pos.value
    ensures pos.None? ==> a.at == w.start
  {
    Agent(if pos.Some? then pos.value else w.start)
  }

  /** The agent may enter exactly the grid's cells that are not walls: the open cells. */
  function CanMoveTo(w: GridWorld, p: Position): (b: bool)
    ensures b <==> p in Cells(w.rows, w.cols) && p !in w.walls
  {
    Open(w, p)
  }

  /** `reset` reaches cells that no sequence of steps can: an agent sent to a wall or an
      out-of-bounds cell stands there, while stepping from anywhere else never gets there. */
  lemma ResetBypassesStepChecks(w: GridWorld, a: Agent, p: Position, directions: seq<string>)
    requires !CanMoveTo(w, p) && a.at != p
    ensures Reset(a, p).at == p
    ensures Run(w, a, directions).agent.at != p
  {
    if Run(w, a, directions).moves > 0 {
      MovedAgentIsOpen(w, a, directions);
    }
  }

  /** The cell a direction token points at: one of the four neighbours for "up", "down",
      "left" and "right", and nothing for any other token. */
  function Target(at: Position, direction: string): (t: Option<Position>)
    ensures direction == "up" ==> t == Some(Neighbors4(at)[0])
    ensures direction == "down" ==> t == Some(Neighbors4(at)[1])
    ensures direction == "left" ==> t == Some(Neighbors4(at)[2])
    ensures direction == "right" ==> t == Some(Neighbors4(at)[3])
    ensures t.None? <==> direction !in {"up", "down", "left", "right"}
    ensures t.Some? ==> Adjacent(at, t.value)
  {
    if direction == "up" then Some(Position(at.row - 1, at.col))
    else if direction == "down" then Some(Position(at.row + 1, at.col))
    else if direction == "left" then Some(Position(at.row, at.col - 1))
    else if direction == "right" then Some(Position(at.row, at.col + 1))
    else None
  }

  /** `step`: moves to the target cell when the agent can move there and reports success;
      otherwise, and for an unknown token, reports failure and stays put. */
  function Step(w: GridWorld, a: Agent, direction: string): (r: StepResult)
    ensures r.moved <==> Target(a.at, direction).Some? && CanMoveTo(w, Target(a.at, direction).value)
    ensures r.moved ==> r.agent.at == Target(a.at, direction).value
    ensures r.moved ==> Adjacent(a.at, r.agent.at) && InBounds(w, r.agent.at) && Passable(w, r.agent.at)
    ensures !r.moved ==> r.agent == a
  {
    match Target(a.at, direction)
    case None => StepResult(false, a)
    case Some(t) => if CanMoveTo(w, t) then StepResult(true, Agent(t)) else StepResult(false, a)
  }

  /** `reset`: teleports the agent with no bounds or wall check. */
  function Reset(a: Agent, p: Position): (a': Agent)
    ensures a'.at == p
  {
    Agent(p)
  }

  /** The agent after a sequence of steps in an unchanging world, and how many of them moved it. */
  datatype RunResult = RunResult(agent: Agent, moves: nat)

  function Run(w: GridWorld, a: Agent, directions: seq<string>): (r: RunResult)
    ensures r.moves <= |directions|
    ensures r.moves == 0 ==> r.agent == a
    decreases |directions|
  {
    if |directions| == 0 then RunResult(a, 0)
    else
      var s := Step(w, a, directions[0]);
      var rest := Run(w, s.agent, directions[1..]);
      RunResult(rest.agent, rest.moves + (if s.moved then 1 else 0))
  }

  /** Once an agent stands on an open cell it stays on open cells, whatever tokens it is given. */
  lemma {:induction false} RunKeepsAgentOpen(w: GridWorld, a: Agent, directions: seq<string>)
    requires CanMoveTo(w, a.at)
    ensures CanMoveTo(w, Run(w, a, directions).agent.at)
    decreases |directions|
  {
    if |directions| > 0 {
      RunKeepsAgentOpen(w, Step(w, a, directions[0]).agent, directions[1..]);
    }
  }

  /** An agent that has moved at least once stands on an open cell, even if it started on a
      wall or outside the grid: a declined move never changes its position. */
  lemma {:induction false} MovedAgentIsOpen(w: GridWorld, a: Agent, directions: seq<string>)
    requires Run(w, a, directions).moves > 0
    ensures CanMoveTo(w, Run(w, a, directions).agent.at)
    decreases |directions|
  {
    var s := Step(w, a, directions[0]);
    if s.moved {
      RunKeepsAgentOpen(w, s.agent, directions[1..]);
    } else {
      MovedAgentIsOpen(w, s.agent, directions[1..]);
    }
  }

  /** The token that moves from `p` to the adjacent cell `q`. */
  function DirectionTo(p: Position, q: Position): (d: string)
    requires Adjacent(p, q)
    ensures Target(p, d) == Some(q)
  {
    if q.row == p.row - 1 then "up"
    else if q.row == p.row + 1 then "down"
    else if q.col == p.col - 1 then "left"
    else "right"
  }

  /** The tokens that walk along a walk. */
  function Directions(w: GridWorld, s: seq<Position>): (ds: seq<string>)
    requires IsWalk(w, s)
    ensures |ds| == |s| - 1
    ensures forall i :: 0 <= i < |s| - 1 ==> Target(s[i], ds[i]) == Some(s[i + 1])
    decreases |s|
  {
    if |s| == 1 then []
    else
      assert Edge(w, s[0], s[1]);
      assert IsWalk(w, s[1..]) by {
        forall i | 0 <= i < |s[1..]| - 1
          ensures Edge(w, s[1..][i], s[1..][i + 1])
        {
          assert Edge(w, s[i + 1], s[i + 2]);
        }
      }
      [DirectionTo(s[0], s[1])] + Directions(w, s[1..])
  }

  /** An agent standing at the start of a path can follow it: every step succeeds and it ends
      at the path's last cell. */
  lemma {:induction false} FollowPath(w: GridWorld, from: Position, to: Position, s: seq<Position>)
    requires IsPath(w, from, to, s)
    ensures Run(w, Agent(from), Directions(w, s)) == RunResult(Agent(to), |s| - 1)
    decreases |s|
  {
    if |s| > 1 {
      PathTail(w, from, to, s);
      assert Edge(w, s[0], s[1]);
      FollowPath(w, s[1], to, s[1..]);
    }
  }

  /** A new agent created without a position stands at the world's start, so given the
      tokens of any path from start to goal it walks that path and ends at the goal. */
  lemma NewAgentFollowsPath(w: GridWorld, s: seq<Position>)
    requires IsPath(w, w.start, w.goal, s)
    ensures Run(w, NewAgent(w, None), Directions(w, s)) == RunResult(Agent(w.goal), |s| - 1)
  {
    FollowPath(w, w.start, w.goal, s);
  }
}

=== FILE: demo.dfy ===
/** The navigation the demo driver performs: search the world for a path from its start to its
    goal, then send a new agent along it. */
module Demo {
  import opened Wrappers
  import opened Positions
  import opened Grids
  import opened Walks
  import opened Agents
  import opened Pathfinding

  /** A new agent placed at the world's default start and given the tokens of the path the
      search finds walks to the goal, with every step succeeding: it moves exactly as many
      times as the shortest path is long. Without a path there is nothing to follow. */
  method AgentFollowsFoundPath(w: GridWorld) returns (r: Option<RunResult>)
    ensures r.Some? <==> Reachable(w, w.start, w.goal)
    ensures r.Some? ==> r.value.agent == Agent(w.goal)
    ensures r.Some? ==> NoShorterPath(w, w.start, w.goal, r.value.moves)
    ensures r.Some? ==> exists s :: IsPath(w, w.start, w.goal, s) && |s| - 1 == r.value.moves
                                     && r.value == Run(w, NewAgent(w, None), Directions(w, s))
  {
    var path, _ := FindPath(w, w.start, w.goal);
    if path.Some? {
      var a := NewAgent(w, None);
      NewAgentFollowsPath(w, path.value);
      r := Some(Run(w, a, Directions(w, path.value)));
    } else {
      r := None;
    }
  }
}

=== FILE: grid_world.dfy ===
/** The grid world: dimensions, a set of wall cells, a start and a goal. */
module Grids {
  import opened Wrappers
  import opened Positions

  /** A world value. The walls are a value set: duplicates collapse and order is irrelevant.
      No field is validated: `start` and `goal` need not be in bounds or passable. */
  datatype GridWorld = GridWorld(rows: int, cols: int, walls: set<Position>, start: Position, goal: Position)

  /** The constructor with its optional arguments: no walls, start (0,0) and goal
      (rows-1, cols-1) unless given. `rows` and `cols` are stored as passed. */
  function NewWorld(rows: int, cols: int, walls: Option<set<Position>>,
                    start: Option<Position>, goal: Option<Position>): (w: GridWorld)
    ensures w.rows == rows && w.cols == cols
    ensures walls.Some? ==> w.walls == walls.value
    ensures walls.None? ==> w.walls == {}
    ensures start.Some? ==> w.start == start.value
    ensures start.None? ==> w.start == Position(0, 0)
    ensures goal.Some? ==> w.goal == goal.value
    ensures goal.None? ==> w.goal == Position(rows - 1, cols - 1)
  {
    GridWorld(rows, cols,
              if walls.Some? then walls.value else {},
              if start.Some? then start.value else Position(0, 0),
              if goal.Some? then goal.value else Position(rows - 1, cols - 1))
  }

  /** A cell is in bounds exactly when it is one of the grid's `rows` by `cols` cells. */
  function InBounds(w: GridWorld, p: Position): (b: bool)
    ensures b <==> p in Cells(w.rows, w.cols)
  {
    assert p == Position(p.row, p.col);
    0 <= p.row < w.rows && 0 <= p.col < w.cols
  }

  /** Passability only consults the wall set; it says nothing about bounds. */
  function Passable(w: GridWorld, p: Position): (b: bool)
    ensures b <==> p !in w.walls
  {
    p !in w.walls
  }

  /** The goal test compares both coordinates, as position equality does. */
  function IsGoal(w: GridWorld, p: Position): (b: bool)
    ensures b <==> p.row == w.goal.row && p.col == w.goal.col
  {
    p == w.goal
  }

  /** A cell an agent may enter and a search may discover: in bounds and not a wall. */
  predicate Open(w: GridWorld, p: Position)
  {
    InBounds(w, p) && Passable(w, p)
  }

  /** Passability and bounds are independent: a cell outside the grid that is not a wall is
      passable, and a wall inside the grid is in bounds. */
  lemma PassableIgnoresBounds(w: GridWorld, p: Position)
    ensures !InBounds(w, p) && p !in w.walls ==> Passable(w, p) && !Open(w, p)
    ensures InBounds(w, p) && p in w.walls ==> !Passable(w, p) && !Open(w, p)
    ensures Open(w, p) <==> InBounds(w, p) && p !in w.walls
  {
  }

  /** In a world built without an explicit goal, the goal test recognises exactly the corner
      (rows-1, cols-1): (4,4) and not (0,0) in a 5 by 5 world. */
  lemma DefaultGoal(rows: int, cols: int, walls: Option<set<Position>>, start: Option<Position>,
                    p: Position)
    ensures IsGoal(NewWorld(rows, cols, walls, start, None), p) <==> p == Position(rows - 1, cols - 1)
    ensures IsGoal(NewWorld(5, 5, None, None, None), Position(4, 4))
    ensures !IsGoal(NewWorld(5, 5, None, None, None), Position(0, 0))
  {
  }

  /** Every in-bounds cell of a `rows` by `cols` grid. */
  function Cells(rows: int, cols: int): set<Position>
  {
    set r: int, c: int | 0 <= r < rows && 0 <= c < cols :: Position(r, c)
  }

  function RowCells(r: int, cols: int): set<Position>
  {
    set c: int | 0 <= c < cols :: Position(r, c)
  }

  lemma {:induction false} RowCellsCard(r: int, cols: nat)
    ensures |RowCells(r, cols)| == cols
  {
    if cols > 0 {
      RowCellsCard(r, cols - 1);
      assert RowCells(r, cols) == RowCells(r, cols - 1) + {Position(r, cols - 1)};
    } else {
      assert RowCells(r, cols) == {};
    }
  }

  /** A grid of `rows` by `cols` has exactly rows * cols cells. */
  lemma {:induction false} CellsCard(rows: nat, cols: nat)
    ensures |Cells(rows, cols)| == rows * cols
  {
    if rows > 0 {
      CellsCard(rows - 1, cols);
      RowCellsCard(rows - 1, cols);
      CellsSplit(rows, cols);
      assert rows * cols == (rows - 1) * cols + cols;
    } else {
      assert Cells(rows, cols) == {};
    }
  }

  /** The last row of a grid is disjoint from the rows above it and together they make the grid. */
  lemma CellsSplit(rows: nat, cols: nat)
    requires rows > 0
    ensures Cells(rows, cols) == Cells(rows - 1, cols) + RowCells(rows - 1, cols)
    ensures Cells(rows - 1, cols) * RowCells(rows - 1, cols) == {}
  {
    forall p | p in Cells(rows, cols)
      ensures p in Cells(rows - 1, cols) + RowCells(rows - 1, cols)
    {
      if p.row < rows - 1 {
        assert p == Position(p.row, p.col);
      } else {
        assert p == Position(rows - 1, p.col);
      }
    }
  }

  /** `place_wall`: adds `p` to the wall set (a set add, so placing twice is harmless). */
  function PlaceWall(w: GridWorld, p: Position): (w': GridWorld)
    ensures !Passable(w', p)
    ensures forall q :: q != p ==> (Passable(w', q) <==> Passable(w, q))
    ensures w'.rows == w.rows && w'.cols == w.cols && w'.start == w.start && w'.goal == w.goal
  {
    w.(walls := w.walls + {p})
  }

  /** `remove_wall`: discards `p` from the wall set; no error if it was not a wall. */
  function RemoveWall(w: GridWorld, p: Position): (w': GridWorld)
    ensures Passable(w', p)
    ensures forall q :: q != p ==> (Passable(w', q) <==> Passable(w, q))
    ensures w'.rows == w.rows && w'.cols == w.cols && w'.start == w.start && w'.goal == w.goal
  {
    w.(walls := w.walls - {p})
  }

  /** Placing a wall twice is the same as placing it once; placing an existing wall changes nothing. */
  lemma PlaceWallIdempotent(w: GridWorld, p: Position)
    ensures PlaceWall(PlaceWall(w, p), p) == PlaceWall(w, p)
    ensures !Passable(w, p) ==> PlaceWall(w, p) == w
  {
  }

  /** Removing a wall twice is the same as removing it once; removing a non-wall changes nothing. */
  lemma RemoveWallIdempotent(w: GridWorld, p: Position)
    ensures RemoveWall(RemoveWall(w, p), p) == RemoveWall(w, p)
    ensures Passable(w, p) ==> RemoveWall(w, p) == w
  {
  }

  /** Placing then removing a wall on a free cell restores the world exactly;
      removing then placing one on a wall cell does too. */
  lemma PlaceRemoveRoundTrip(w: GridWorld, p: Position)
    ensures Passable(w, p) ==> RemoveWall(PlaceWall(w, p), p) == w
    ensures !Passable(w, p) ==> PlaceWall(RemoveWall(w, p), p) == w
  {
  }

  /** Walls never change bounds: a wall cell in the grid is still in bounds. */
  lemma WallsDoNotAffectBounds(w: GridWorld, p: Position, q: Position)
    ensures InBounds(PlaceWall(w, q), p) <==> InBounds(w, p)
    ensures InBounds(RemoveWall(w, q), p) <==> InBounds(w, p)
  {
  }
}

=== FILE: path.dfy ===
/** Breadth-first search over the open cells of a grid world, with a FIFO queue, cells marked
    visited when discovered, and a parent map from which the path is rebuilt. */
module Pathfinding {
  import opened Wrappers
  import opened Positions
  import opened Grids
  import opened Walks

  /** The parent map as the search builds it: the start maps to `None`; every other
      discovered cell maps to the cell it was discovered from, one move away and one level
      closer to the start. `dist` records each discovered cell's level. */
  ghost predicate ParentTree(w: GridWorld, start: Position,
                             parent: map<Position, Option<Position>>, dist: map<Position, nat>)
  {
    && parent.Keys == dist.Keys
    && start in parent && parent[start] == None && dist[start] == 0
    && forall v :: v in parent && v != start ==>
         && parent[v].Some?
         && parent[v].value in parent
         && Edge(w, parent[v].value, v)
         && dist[v] == dist[parent[v].value] + 1
  }

  /** Cell `u` has been expanded: every neighbour of it that is in bounds and passable has
      been discovered. */
  ghost predicate Expanded(w: GridWorld, u: Position, visited: set<Position>)
  {
    forall k :: 0 <= k < 4 ==> Open(w, Neighbors4(u)[k]) ==> Neighbors4(u)[k] in visited
  }

  /** The first cell of `s` outside `v`, for a sequence that starts inside and ends outside. */
  lemma FirstExit(s: seq<Position>, v: set<Position>) returns (j: nat)
    requires |s| > 0 && s[0] in v && s[|s| - 1] !in v
    ensures 0 < j < |s| && s[j - 1] in v && s[j] !in v
  {
    j := 1;
    while s[j] in v
      invariant 0 < j < |s| && s[j - 1] in v
      decreases |s| - j
    {
      j := j + 1;
    }
  }

  /** A path leaves a set of discovered cells only through an unexpanded cell. */
  lemma LeavesThroughUnexpanded(w: GridWorld, start: Position, x: Position, s: seq<Position>,
                                visited: set<Position>, closed: set<Position>) returns (j: nat)
    requires IsPath(w, start, x, s) && start in visited && x !in visited
    requires forall u :: u in closed ==> Expanded(w, u, visited)
    ensures 0 < j < |s| && s[j - 1] in visited && s[j - 1] !in closed
    ensures IsPath(w, start, s[j - 1], s[..j])
  {
    j := FirstExit(s, visited);
    PathPrefix(w, start, x, s, j - 1);
    assert Edge(w, s[j - 1], s[j]);
    if s[j - 1] in closed {
      NeighborsAreAdjacent(s[j - 1], s[j]);
      assert false;
    }
  }

  /** The level argument of breadth-first search: when every discovered cell's level is a
      lower bound on its path length and every unexpanded cell is at level `d` or deeper, any
      path to an undiscovered cell makes more than `d` moves. */
  lemma ExitCost(w: GridWorld, start: Position, x: Position, s: seq<Position>,
                 visited: set<Position>, closed: set<Position>, dist: map<Position, nat>, d: int)
    requires IsPath(w, start, x, s) && start in visited && x !in visited
    requires visited <= dist.Keys
    requires forall v :: v in visited ==> NoShorterPath(w, start, v, dist[v])
    requires forall u :: u in visited && u !in closed ==> dist[u] >= d
    requires forall u :: u in closed ==> Expanded(w, u, visited)
    ensures |s| - 1 >= d + 1
  {
    var j := LeavesThroughUnexpanded(w, start, x, s, visited, closed);
    assert NoShorterPath(w, start, s[j - 1], dist[s[j - 1]]);
  }

  /** A set of discovered cells that are all expanded contains every cell reachable from
      the start. */
  lemma ExpandedRegionIsClosed(w: GridWorld, start: Position, x: Position, visited: set<Position>)
    requires start in visited && x !in visited
    requires forall u :: u in visited ==> Expanded(w, u, visited)
    ensures !Reachable(w, start, x)
  {
    if Reachable(w, start, x) {
      var s :| IsPath(w, start, x, s);
      var j := LeavesThroughUnexpanded(w, start, x, s, visited, visited);
      assert false;
    }
  }

  /** Walks the parent links from `goal` back to the start, then reverses the collected cells.
      The result is a path whose i-th cell is at level i. */
  method Reconstruct(ghost w: GridWorld, ghost start: Position,
                     parent: map<Position, Option<Position>>, ghost dist: map<Position, nat>,
                     goal: Position) returns (path: seq<Position>)
    requires ParentTree(w, start, parent, dist) && goal in parent
    ensures IsPath(w, start, goal, path)
    ensures |path| == dist[goal] + 1
    ensures forall i :: 0 <= i < |path| ==> path[i] in dist && dist[path[i]] == i
  {
    var back: seq<Position> := [];
    var node: Option<Position> := Some(goal);
    while node.Some?
      invariant |back| == 0 ==> node == Some(goal)
      invariant node.Some? ==> node.value in parent && |back| + dist[node.value] == dist[goal]
      invariant node.None? ==> |back| == dist[goal] + 1 && back[|back| - 1] == start
      invariant forall i :: 0 <= i < |back| ==> back[i] in parent && dist[back[i]] == dist[goal] - i
      invariant |back| > 0 ==> back[0] == goal
      invariant forall i :: 0 <= i < |back| - 1 ==> Edge(w, back[i + 1], back[i])
      invariant node.Some? && |back| > 0 ==> Edge(w, node.value, back[|back| - 1])
      decreases if node.Some? then dist[node.value] + 1 else 0
    {
      var x := node.value;
      back := back + [x];
      node := parent[x];
    }
    path := Reverse(back);
    ReversedChainIsPath(w, start, goal, back, dist);
  }

  /** A parent chain read from the goal back to the start, reversed, is a path from the start
      to the goal whose i-th cell is at level i. */
  lemma ReversedChainIsPath(w: GridWorld, start: Position, goal: Position, back: seq<Position>,
                            dist: map<Position, nat>)
    requires goal in dist && |back| == dist[goal] + 1
    requires back[0] == goal && back[|back| - 1] == start
    requires forall i :: 0 <= i < |back| ==> back[i] in dist && dist[back[i]] == dist[goal] - i
    requires forall i :: 0 <= i < |back| - 1 ==> Edge(w, back[i + 1], back[i])
    ensures IsPath(w, start, goal, Reverse(back))
    ensures forall i :: 0 <= i < |back| ==> Reverse(back)[i] in dist && dist[Reverse(back)[i]] == i
  {
    var path := Reverse(back);
    forall i | 0 <= i < |path| - 1
      ensures Edge(w, path[i], path[i + 1])
    {
      assert Edge(w, back[|back| - 1 - i], back[|back| - 2 - i]);
    }
  }

  function Reverse(s: seq<Position>): (r: seq<Position>)
    ensures |r| == |s|
    ensures forall i :: 0 <= i < |s| ==> r[i] == s[|s| - 1 - i]
  {
    if |s| == 0 then [] else Reverse(s[1..]) + [s[0]]
  }

  /** Every discovered cell's level is a lower bound on the length of any path to it. */
  ghost predicate LevelsAreLowerBounds(w: GridWorld, start: Position, visited: set<Position>,
                                       dist: map<Position, nat>)
    requires visited <= dist.Keys
  {
    forall v :: v in visited ==> NoShorterPath(w, start, v, dist[v])
  }

  /** The search's state between two pops. `closed` holds the cells already popped and
      expanded; the queue holds the other discovered cells, without repeats, in order of
      level, spanning at most two levels. */
  ghost predicate Searching(w: GridWorld, start: Position, goal: Position, queue: seq<Position>,
                            visited: set<Position>, parent: map<Position, Option<Position>>,
                            dist: map<Position, nat>, closed: set<Position>, cells: set<Position>)
  {
    && visited == parent.Keys
    && ParentTree(w, start, parent, dist)
    && closed <= visited
    && (forall i :: 0 <= i < |queue| ==> queue[i] in visited && queue[i] !in closed)
    && (forall v :: v in visited && v !in closed ==> v in queue)
    && NoRepeats(queue)
    && (forall u :: u in closed ==> Expanded(w, u, visited))
    && goal !in closed
    && (closed == {} ==> queue == [start])
    && (closed != {} ==> start in closed)
    && (forall i, j :: 0 <= i <= j < |queue| ==> dist[queue[i]] <= dist[queue[j]])
    && (forall i :: 0 <= i < |queue| ==> dist[queue[i]] <= dist[queue[0]] + 1)
    && LevelsAreLowerBounds(w, start, visited, dist)
    && visited <= cells + {start}
  }

  /** The search's state while the neighbours of the popped cell `current`, at level `d`,
      are being discovered. */
  ghost predicate Expanding(w: GridWorld, start: Position, current: Position, d: nat,
                            queue: seq<Position>, visited: set<Position>,
                            parent: map<Position, Option<Position>>, dist: map<Position, nat>,
                            closed: set<Position>, cells: set<Position>)
  {
    && visited == parent.Keys
    && ParentTree(w, start, parent, dist)
    && closed <= visited && current in visited && current !in closed
    && (forall k :: 0 <= k < |queue| ==> queue[k] in visited && queue[k] !in closed && queue[k] != current)
    && (forall v :: v in visited && v !in closed && v != current ==> v in queue)
    && NoRepeats(queue)
    && (forall u :: u in closed ==> Expanded(w, u, visited))
    && (closed == {} ==> current == start)
    && (closed != {} ==> start in closed)
    && dist[current] == d
    && (forall k :: 0 <= k < |queue| ==> d <= dist[queue[k]] <= d + 1)
    && (forall k, l :: 0 <= k <= l < |queue| ==> dist[queue[k]] <= dist[queue[l]])
    && LevelsAreLowerBounds(w, start, visited, dist)
    && visited <= cells + {start}
  }

  lemma SearchStarts(w: GridWorld, start: Position, goal: Position, cells: set<Position>)
    ensures Searching(w, start, goal, [start], {start}, map[start := None], map[start := 0], {}, cells)
  {
    forall s | IsPath(w, start, start, s)
      ensures |s| - 1 >= 0
    {
    }
  }

  lemma PopHead(w: GridWorld, start: Position, goal: Position, queue: seq<Position>,
                visited: set<Position>, parent: map<Position, Option<Position>>,
                dist: map<Position, nat>, closed: set<Position>, cells: set<Position>)
    requires Searching(w, start, goal, queue, visited, parent, dist, closed, cells)
    requires |queue| > 0 && queue[0] != goal
    ensures Expanding(w, start, queue[0], dist[queue[0]], queue[1..], visited, parent, dist, closed, cells)
  {
    var q := queue[1..];
    forall v | v in visited && v !in closed && v != queue[0]
      ensures v in q
    {
      var i :| 0 <= i < |queue| && queue[i] == v;
      assert q[i - 1] == v;
    }
    forall k | 0 <= k < |q|
      ensures q[k] != queue[0]
    {
      assert q[k] == queue[k + 1];
    }
  }

  lemma DiscoverNeighbor(w: GridWorld, start: Position, current: Position, d: nat,
                         queue: seq<Position>, visited: set<Position>,
                         parent: map<Position, Option<Position>>, dist: map<Position, nat>,
                         closed: set<Position>, cells: set<Position>, n: Position)
    requires Expanding(w, start, current, d, queue, visited, parent, dist, closed, cells)
    requires Edge(w, current, n) && n !in visited && cells == Cells(w.rows, w.cols)
    ensures Expanding(w, start, current, d, queue + [n], visited + {n}, parent[n := Some(current)],
                      dist[n := d + 1], closed, cells)
  {
    LevelOfNewCell(w, start, current, d, queue, visited, parent, dist, closed, cells, n);
    ParentOfNewCell(w, start, current, d, visited, parent, dist, n);
    QueueWithNewCell(queue, dist, d, n);
    forall u | u in closed
      ensures Expanded(w, u, visited + {n})
    {
      assert Expanded(w, u, visited);
    }
  }

  /** A newly discovered cell at level d + 1 has no path shorter than d + 1 moves. */
  lemma LevelOfNewCell(w: GridWorld, start: Position, current: Position, d: nat,
                       queue: seq<Position>, visited: set<Position>,
                       parent: map<Position, Option<Position>>, dist: map<Position, nat>,
                       closed: set<Position>, cells: set<Position>, n: Position)
    requires Expanding(w, start, current, d, queue, visited, parent, dist, closed, cells)
    requires n !in visited
    ensures LevelsAreLowerBounds(w, start, visited + {n}, dist[n := d + 1])
  {
    forall u | u in visited && u !in closed
      ensures dist[u] >= d
    {
      if u != current {
        var k :| 0 <= k < |queue| && queue[k] == u;
      }
    }
    forall s | IsPath(w, start, n, s)
      ensures |s| - 1 >= d + 1
    {
      ExitCost(w, start, n, s, visited, closed, dist, d);
    }
    var dist' := dist[n := d + 1];
    forall v | v in visited + {n}
      ensures NoShorterPath(w, start, v, dist'[v])
    {
      if v != n {
        assert NoShorterPath(w, start, v, dist[v]);
      }
    }
  }

  lemma ParentOfNewCell(w: GridWorld, start: Position, current: Position, d: nat,
                        visited: set<Position>, parent: map<Position, Option<Position>>,
                        dist: map<Position, nat>, n: Position)
    requires ParentTree(w, start, parent, dist) && visited == parent.Keys
    requires current in visited && dist[current] == d
    requires Edge(w, current, n) && n !in visited
    ensures ParentTree(w, start, parent[n := Some(current)], dist[n := d + 1])
  {
  }

  lemma QueueWithNewCell(queue: seq<Position>, dist: map<Position, nat>, d: nat, n: Position)
    requires forall k :: 0 <= k < |queue| ==> queue[k] in dist && queue[k] != n
    requires forall k :: 0 <= k < |queue| ==> d <= dist[queue[k]] <= d + 1
    requires forall k, l :: 0 <= k <= l < |queue| ==> dist[queue[k]] <= dist[queue[l]]
    ensures forall k, l :: 0 <= k <= l < |queue + [n]| ==>
      dist[n := d + 1][(queue + [n])[k]] <= dist[n := d + 1][(queue + [n])[l]]
    ensures forall k :: 0 <= k < |queue + [n]| ==> d <= dist[n := d + 1][(queue + [n])[k]] <= d + 1
  {
    var q', dist' := queue + [n], dist[n := d + 1];
    forall k, l | 0 <= k <= l < |q'|
      ensures dist'[q'[k]] <= dist'[q'[l]]
    {
      if l < |queue| {
        assert q'[k] == queue[k] && q'[l] == queue[l];
      } else if k < |queue| {
        assert q'[k] == queue[k];
      }
    }
  }

  /** The cells of `ns`, in order, that a search with visited set `visited` discovers: those
      in bounds, passable and not yet visited. */
  function Discoverable(w: GridWorld, ns: seq<Position>, visited: set<Position>): (r: seq<Position>)
    ensures forall x :: x in r ==> x in ns && Open(w, x) && x !in visited
    ensures forall x :: x in ns && Open(w, x) && x !in visited ==> x in r
  {
    if |ns| == 0 then []
    else
      var last := ns[|ns| - 1];
      Discoverable(w, ns[..|ns| - 1], visited) + (if Open(w, last) && last !in visited then [last] else [])
  }

  /** Discovers one neighbour `n` of `current`: marks it visited, records `current` as its
      parent, gives it the next level and appends it to the queue. */
  method Discover(w: GridWorld, ghost start: Position, current: Position, ghost d: nat,
                  queue: seq<Position>, visited: set<Position>,
                  parent: map<Position, Option<Position>>, ghost dist: map<Position, nat>,
                  ghost closed: set<Position>, ghost cells: set<Position>, n: Position)
    returns (queue': seq<Position>, visited': set<Position>,
             parent': map<Position, Option<Position>>, ghost dist': map<Position, nat>)
    requires Expanding(w, start, current, d, queue, visited, parent, dist, closed, cells)
    requires Edge(w, current, n) && n !in visited && cells == Cells(w.rows, w.cols)
    ensures Expanding(w, start, current, d, queue', visited', parent', dist', closed, cells)
    ensures queue' == queue + [n] && visited' == visited + {n} && parent' == parent[n := Some(current)]
  {
    DiscoverNeighbor(w, start, current, d, queue, visited, parent, dist, closed, cells, n);
    visited' := visited + {n};
    parent' := parent[n := Some(current)];
    dist' := dist[n := d + 1];
    queue' := queue + [n];
  }

  /** What the expansion of `current` has done after the first `i` cells of its neighbour
      list `ns`, measured against the state `queue`, `visited`, `parent` it started from:
      exactly the discoverable ones among them were appended to the queue and marked visited
      with `current` as parent, every open one among them is visited, and no other parent
      changed. */
  ghost predicate Progress(w: GridWorld, current: Position, ns: seq<Position>, i: nat,
                           cells: set<Position>,
                           queue: seq<Position>, visited: set<Position>,
                           parent: map<Position, Option<Position>>,
                           queue': seq<Position>, visited': set<Position>,
                           parent': map<Position, Option<Position>>)
    requires i <= |ns|
  {
    && (forall k :: 0 <= k < i ==> Open(w, ns[k]) ==> ns[k] in visited')
    && queue' == queue + Discoverable(w, ns[..i], visited)
    && (forall x :: x in Discoverable(w, ns[..i], visited) ==> x in visited')
    && (forall x :: x in visited' - visited ==> x in Discoverable(w, ns[..i], visited))
    && (forall v :: v in visited ==> v in parent && v in parent' && parent'[v] == parent[v])
    && (forall x :: x in visited' - visited ==> x in parent' && parent'[x] == Some(current))
    && visited <= visited' && visited' - visited <= cells
    && (visited' == visited ==> queue' == queue)
  }

  /** Nothing is done before the first neighbour. */
  lemma ProgressStarts(w: GridWorld, current: Position, ns: seq<Position>, cells: set<Position>,
                       queue: seq<Position>, visited: set<Position>,
                       parent: map<Position, Option<Position>>)
    requires visited <= parent.Keys
    ensures Progress(w, current, ns, 0, cells, queue, visited, parent, queue, visited, parent)
  {
    assert ns[..0] == [];
  }

  /** A neighbour that is closed, out of bounds or already visited is skipped: since the
      neighbours differ, already visited by this expansion means visited before it. */
  lemma ProgressSkip(w: GridWorld, current: Position, ns: seq<Position>, i: nat,
                     cells: set<Position>,
                     queue: seq<Position>, visited: set<Position>,
                     parent: map<Position, Option<Position>>,
                     q: seq<Position>, v: set<Position>, p: map<Position, Option<Position>>)
    requires i < |ns| && forall j :: 0 <= j < i ==> ns[j] != ns[i]
    requires Progress(w, current, ns, i, cells, queue, visited, parent, q, v, p)
    requires !(Open(w, ns[i]) && ns[i] !in v)
    ensures Progress(w, current, ns, i + 1, cells, queue, visited, parent, q, v, p)
  {
    DiscoverableSnoc(w, ns, i, visited);
    assert ns[i] !in ns[..i];
    assert Open(w, ns[i]) ==> ns[i] in visited;
    assert Discoverable(w, ns[..i + 1], visited) == Discoverable(w, ns[..i], visited);
  }

  /** An open neighbour this expansion has not visited was not visited before it either, so
      discovering it extends the progress by exactly that cell. */
  lemma ProgressAdd(w: GridWorld, current: Position, ns: seq<Position>, i: nat,
                    cells: set<Position>,
                    queue: seq<Position>, visited: set<Position>,
                    parent: map<Position, Option<Position>>,
                    q: seq<Position>, v: set<Position>, p: map<Position, Option<Position>>)
    requires i < |ns| && forall j :: 0 <= j < i ==> ns[j] != ns[i]
    requires Progress(w, current, ns, i, cells, queue, visited, parent, q, v, p)
    requires Open(w, ns[i]) && ns[i] !in v && ns[i] in cells
    ensures Progress(w, current, ns, i + 1, cells, queue, visited, parent,
                     q + [ns[i]], v + {ns[i]}, p[ns[i] := Some(current)])
  {
    DiscoverableSnoc(w, ns, i, visited);
    assert ns[i] !in visited;
    assert Discoverable(w, ns[..i + 1], visited) == Discoverable(w, ns[..i], visited) + [ns[i]];
  }

  /** Taking one more cell of `ns` into account appends it exactly when it is discoverable. */
  lemma DiscoverableSnoc(w: GridWorld, ns: seq<Position>, i: nat, visited: set<Position>)
    requires i < |ns|
    ensures Discoverable(w, ns[..i + 1], visited)
            == Discoverable(w, ns[..i], visited) + (if Open(w, ns[i]) && ns[i] !in visited then [ns[i]] else [])
  {
    assert ns[..i + 1][..i] == ns[..i];
  }

  /** Handles neighbour `i` of `current`: discovers it when it is in bounds, passable and not
      yet visited. */
  method ExpandOne(w: GridWorld, ghost start: Position, current: Position, ghost d: nat, i: nat,
                   ghost queue0: seq<Position>, ghost visited0: set<Position>,
                   ghost parent0: map<Position, Option<Position>>,
                   queue: seq<Position>, visited: set<Position>,
                   parent: map<Position, Option<Position>>, ghost dist: map<Position, nat>,
                   ghost closed: set<Position>, ghost cells: set<Position>)
    returns (queue': seq<Position>, visited': set<Position>,
             parent': map<Position, Option<Position>>, ghost dist': map<Position, nat>)
    requires i < 4 && cells == Cells(w.rows, w.cols)
    requires Expanding(w, start, current, d, queue, visited, parent, dist, closed, cells)
    requires Progress(w, current, Neighbors4(current), i, cells, queue0, visited0, parent0,
                      queue, visited, parent)
    ensures Expanding(w, start, current, d, queue', visited', parent', dist', closed, cells)
    ensures Progress(w, current, Neighbors4(current), i + 1, cells, queue0, visited0, parent0,
                     queue', visited', parent')
  {
    var ns := Neighbors4(current);
    var n := ns[i];
    if InBounds(w, n) && Passable(w, n) && n !in visited {
      ProgressAdd(w, current, ns, i, cells, queue0, visited0, parent0, queue, visited, parent);
      queue', visited', parent', dist' :=
        Discover(w, start, current, d, queue, visited, parent, dist, closed, cells, n);
    } else {
      ProgressSkip(w, current, ns, i, cells, queue0, visited0, parent0, queue, visited, parent);
      queue', visited', parent', dist' := queue, visited, parent, dist;
    }
  }

  /** Discovers, in the fixed up, down, left, right order, every neighbour of `current` that
      is in bounds, passable and not yet visited: marks it visited, records `current` as its
      parent and appends it to the queue. No other cell's parent changes. */
  method ExpandNeighbors(w: GridWorld, ghost start: Position, current: Position, ghost d: nat,
                         queue: seq<Position>, visited: set<Position>,
                         parent: map<Position, Option<Position>>, ghost dist: map<Position, nat>,
                         ghost closed: set<Position>, ghost cells: set<Position>)
    returns (queue': seq<Position>, visited': set<Position>,
             parent': map<Position, Option<Position>>, ghost dist': map<Position, nat>)
    requires Expanding(w, start, current, d, queue, visited, parent, dist, closed, cells)
    requires cells == Cells(w.rows, w.cols)
    ensures Expanding(w, start, current, d, queue', visited', parent', dist', closed, cells)
    ensures Expanded(w, current, visited')
    ensures queue' == queue + Discoverable(w, Neighbors4(current), visited)
    ensures forall x :: x in Discoverable(w, Neighbors4(current), visited) ==> x in visited'
    ensures forall x :: x in visited' - visited ==> x in Discoverable(w, Neighbors4(current), visited)
    ensures forall v :: v in visited ==> v in parent' && parent'[v] == parent[v]
    ensures forall x :: x in visited' - visited ==> x in parent' && parent'[x] == Some(current)
    ensures visited <= visited' && visited' - visited <= cells
    ensures visited' == visited ==> queue' == queue
  {
    queue', visited', parent', dist' := queue, visited, parent, dist;
    ProgressStarts(w, current, Neighbors4(current), cells, queue, visited, parent);
    for i := 0 to 4
      invariant Expanding(w, start, current, d, queue', visited', parent', dist', closed, cells)
      invariant Progress(w, current, Neighbors4(current), i, cells, queue, visited, parent,
                         queue', visited', parent')
    {
      queue', visited', parent', dist' :=
        ExpandOne(w, start, current, d, i, queue, visited, parent,
                  queue', visited', parent', dist', closed, cells);
    }
    assert Neighbors4(current)[..4] == Neighbors4(current);
  }

  lemma FinishExpanding(w: GridWorld, start: Position, goal: Position, current: Position, d: nat,
                        queue: seq<Position>, visited: set<Position>,
                        parent: map<Position, Option<Position>>, dist: map<Position, nat>,
                        closed: set<Position>, cells: set<Position>)
    requires Expanding(w, start, current, d, queue, visited, parent, dist, closed, cells)
    requires Expanded(w, current, visited) && current != goal && goal !in closed
    ensures Searching(w, start, goal, queue, visited, parent, dist, closed + {current}, cells)
  {
  }

  /** One round of the search loop for a popped cell that is not the goal: expands it and
      moves it to the closed set. Either some in-bounds cell was newly discovered, or the
      queue got shorter. */
  method ExpandHead(w: GridWorld, ghost start: Position, ghost goal: Position,
                    queue: seq<Position>, visited: set<Position>,
                    parent: map<Position, Option<Position>>, ghost dist: map<Position, nat>,
                    ghost closed: set<Position>, ghost cells: set<Position>)
    returns (queue': seq<Position>, visited': set<Position>,
             parent': map<Position, Option<Position>>, ghost dist': map<Position, nat>,
             ghost closed': set<Position>)
    requires Searching(w, start, goal, queue, visited, parent, dist, closed, cells)
    requires cells == Cells(w.rows, w.cols)
    requires |queue| > 0 && queue[0] != goal
    ensures Searching(w, start, goal, queue', visited', parent', dist', closed', cells)
    ensures |closed'| == |closed| + 1
    ensures (cells - visited' < cells - visited) || (visited' == visited && |queue'| < |queue|)
  {
    var current := queue[0];
    PopHead(w, start, goal, queue, visited, parent, dist, closed, cells);
    ghost var d := dist[current];
    assert current !in closed;
    assert |closed + {current}| == |closed| + 1;
    queue', visited', parent', dist' :=
      ExpandNeighbors(w, start, current, d, queue[1..], visited, parent, dist, closed, cells);
    FinishExpanding(w, start, goal, current, d, queue', visited', parent', dist', closed, cells);
    closed' := closed + {current};
    if visited' != visited {
      StrictShrink(cells, visited, visited');
    }
  }

  lemma StrictShrink(cells: set<Position>, visited: set<Position>, visited': set<Position>)
    requires visited <= visited' && visited' - visited <= cells && visited' != visited
    ensures cells - visited' < cells - visited
  {
    assert visited' == visited + (visited' - visited);
    var x :| x in visited' - visited;
    assert x in (cells - visited) - (cells - visited');
  }

  /** The round of the search loop that pops the goal: the path read back from the parent
      links is a shortest path without repeats, and the goal is the last of at most
      rows * cols popped cells when the start is in bounds. */
  method FoundGoal(w: GridWorld, start: Position, goal: Position, queue: seq<Position>,
                   visited: set<Position>, parent: map<Position, Option<Position>>,
                   ghost dist: map<Position, nat>, ghost closed: set<Position>,
                   ghost cells: set<Position>) returns (p: seq<Position>)
    requires Searching(w, start, goal, queue, visited, parent, dist, closed, cells)
    requires cells == Cells(w.rows, w.cols)
    requires |queue| > 0 && queue[0] == goal
    ensures IsPath(w, start, goal, p) && NoRepeats(p)
    ensures NoShorterPath(w, start, goal, |p| - 1)
    ensures InBounds(w, start) ==> |closed| + 1 <= w.rows * w.cols
    ensures start == goal ==> p == [start] && closed == {}
    ensures start != goal ==> Open(w, goal)
  {
    p := Reconstruct(w, start, parent, dist, goal);
    FoundPathFacts(w, start, goal, p, dist);
    CountBound(w, start, closed + {goal}, visited, cells);
    if start == goal {
      assert closed == {};
      assert p == [start];
    }
  }

  /** `find_path`: breadth-first search from `start` to `goal`. Returns the path, or `None`
      when the goal cannot be reached, together with the number of cells popped from the
      queue (`nodes_expanded`). The start cell itself is never checked: it is always
      enqueued and popped, and only the cells discovered from it are filtered. */
  method FindPath(w: GridWorld, start: Position, goal: Position)
    returns (path: Option<seq<Position>>, nodesExpanded: nat)
    ensures nodesExpanded >= 1
    ensures InBounds(w, start) ==> nodesExpanded <= w.rows * w.cols
    ensures start == goal ==> path == Some([start]) && nodesExpanded == 1
    ensures path.Some? ==> IsPath(w, start, goal, path.value) && NoRepeats(path.value)
    ensures path.Some? ==> NoShorterPath(w, start, goal, |path.value| - 1)
    ensures path.Some? <==> Reachable(w, start, goal)
    ensures start != goal && !Open(w, goal) ==> path.None?
  {
    nodesExpanded := 0;
    var queue := [start];
    var visited := {start};
    var parent: map<Position, Option<Position>> := map[start := None];
    ghost var dist: map<Position, nat> := map[start := 0];
    ghost var closed: set<Position> := {};
    ghost var cells := Cells(w.rows, w.cols);
    SearchStarts(w, start, goal, cells);

    while |queue| > 0
      invariant Searching(w, start, goal, queue, visited, parent, dist, closed, cells)
      invariant nodesExpanded == |closed|
      decreases cells - visited, |queue|
    {
      var current := queue[0];
      if current == goal {
        var p := FoundGoal(w, start, goal, queue, visited, parent, dist, closed, cells);
        queue := queue[1..];
        nodesExpanded := nodesExpanded + 1;
        path := Some(p);
        return;
      }
      queue, visited, parent, dist, closed :=
        ExpandHead(w, start, goal, queue, visited, parent, dist, closed, cells);
      nodesExpanded := nodesExpanded + 1;
    }

    path := None;
    ExpandedRegionIsClosed(w, start, goal, visited);
    CountBound(w, start, closed, visited, cells);
  }

  /** What the reconstructed path gives `find_path`'s contract. */
  lemma FoundPathFacts(w: GridWorld, start: Position, goal: Position, p: seq<Position>,
                       dist: map<Position, nat>)
    requires IsPath(w, start, goal, p)
    requires forall i :: 0 <= i < |p| ==> p[i] in dist && dist[p[i]] == i
    ensures NoRepeats(p)
    ensures start != goal ==> Open(w, goal)
  {
    if start != goal {
      LastMoveIntoGoal(w, start, goal, p);
    }
  }

  /** Every popped cell was discovered, and every discovered cell but the start is in bounds,
      so a search from an in-bounds start pops at most rows * cols cells. */
  lemma CountBound(w: GridWorld, start: Position, popped: set<Position>, visited: set<Position>,
                   cells: set<Position>)
    requires cells == Cells(w.rows, w.cols)
    requires popped <= visited && visited <= cells + {start}
    ensures InBounds(w, start) ==> |popped| <= w.rows * w.cols
  {
    if InBounds(w, start) {
      assert visited <= cells;
      SubsetCard(popped, cells);
      CellsCard(w.rows, w.cols);
    }
  }

  lemma SubsetCard(a: set<Position>, b: set<Position>)
    requires a <= b
    ensures |a| <= |b|
  {
    assert b == a + (b - a);
  }

  /** On a grid without walls, the search between two in-bounds cells always succeeds and
      returns exactly Manhattan distance plus one cells: 5 for (0,0) to (0,4) and for (0,0)
      to (2,2) on a 5 by 5 grid. */
  method ShortestOnOpenGrid(w: GridWorld, start: Position, goal: Position)
    returns (path: Option<seq<Position>>, nodesExpanded: nat)
    requires w.walls == {} && InBounds(w, start) && InBounds(w, goal)
    ensures path.Some? && |path.value| == Manhattan(start, goal) + 1
    ensures nodesExpanded <= w.rows * w.cols
  {
    path, nodesExpanded := FindPath(w, start, goal);
    StaircaseIsPath(w, start, goal);
    assert IsPath(w, start, goal, Staircase(start, goal));
    PathLowerBound(w, start, goal, path.value);
  }
}

=== FILE: position.dfy ===
/** Integer grid coordinates, their four-neighbourhood and their string form. */
module Positions {
  import opened Wrappers

  /** A (row, col) cell address. Both fields are unbounded integers and may be negative:
      the constructor performs no bounds check. Equality is structural. */
  datatype Position = Position(row: int, col: int)

  function Abs(x: int): nat
  {
    if x < 0 then -x else x
  }

  /** Manhattan (city-block) distance between two positions. */
  function Manhattan(p: Position, q: Position): nat
  {
    Abs(p.row - q.row) + Abs(p.col - q.col)
  }

  /** Two positions are 4-adjacent when they differ by exactly one in exactly one coordinate. */
  predicate Adjacent(p: Position, q: Position)
  {
    || (Abs(p.row - q.row) == 1 && p.col == q.col)
    || (p.row == q.row && Abs(p.col - q.col) == 1)
  }

  /** The four neighbours of `p`, in the fixed order up, down, left, right. */
  function Neighbors4(p: Position): (r: seq<Position>)
    ensures |r| == 4
    ensures r[0].row == p.row - 1 && r[0].col == p.col
    ensures r[1].row == p.row + 1 && r[1].col == p.col
    ensures r[2].row == p.row && r[2].col == p.col - 1
    ensures r[3].row == p.row && r[3].col == p.col + 1
    ensures forall i, j :: 0 <= i < j < 4 ==> r[i] != r[j]
    ensures forall i :: 0 <= i < 4 ==> Manhattan(p, r[i]) == 1 && Adjacent(p, r[i])
  {
    [ Position(p.row - 1, p.col),
      Position(p.row + 1, p.col),
      Position(p.row, p.col - 1),
      Position(p.row, p.col + 1) ]
  }

  /** Adjacency is the same relation as Manhattan distance one. */
  lemma AdjacentIffManhattanOne(p: Position, q: Position)
    ensures Adjacent(p, q) <==> Manhattan(p, q) == 1
  {
  }

  /** The neighbour enumeration lists exactly the 4-adjacent positions. */
  lemma NeighborsAreAdjacent(p: Position, q: Position)
    ensures q in Neighbors4(p) <==> Adjacent(p, q)
  {
    var n := Neighbors4(p);
    if Adjacent(p, q) {
      if q.row == p.row - 1 {
        assert q == n[0];
      } else if q.row == p.row + 1 {
        assert q == n[1];
      } else if q.col == p.col - 1 {
        assert q == n[2];
      } else {
        assert q == n[3];
      }
    }
  }

  /** Adjacency is symmetric. */
  lemma AdjacentSymmetric(p: Position, q: Position)
    ensures Adjacent(p, q) <==> Adjacent(q, p)
  {
  }

  /** Equality and hashing are structural: two positions are equal exactly when both fields
      agree, so equal positions collapse in a set. */
  lemma StructuralEquality(p: Position, q: Position)
    ensures p == q <==> p.row == q.row && p.col == q.col
    ensures p == q ==> |{p, q}| == 1
    ensures p != q ==> |{p, q}| == 2
  {
  }

  // ----- String form -----------------------------------------------------------------------

  function DigitChar(d: int): char
    requires 0 <= d < 10
  {
    "0123456789"[d]
  }

  predicate IsDigit(c: char)
  {
    '0' <= c <= '9'
  }

  function DigitValue(c: char): int
  {
    c as int - '0' as int
  }

  /** Decimal digits of a natural number, most significant first, without leading zeros. */
  function NatToString(n: nat): (s: string)
    ensures |s| >= 1
    ensures forall i :: 0 <= i < |s| ==> IsDigit(s[i])
  {
    if n < 10 then [DigitChar(n)] else NatToString(n / 10) + [DigitChar(n % 10)]
  }

  /** Python's `str` of an int: a minus sign for negative values, then the decimal digits. */
  function IntToString(i: int): string
  {
    if i < 0 then "-" + NatToString(-i) else NatToString(i)
  }

  /** The string form "(row,col)" produced by `__repr__`. */
  function Repr(p: Position): string
  {
    "(" + IntToString(p.row) + "," + IntToString(p.col) + ")"
  }

  /** Reads a string of decimal digits back as a number. */
  function ParseNat(s: string): nat
  {
    if |s| == 0 then 0
    else
      var d := DigitValue(s[|s| - 1]);
      ParseNat(s[..|s| - 1]) * 10 + (if 0 <= d then d else 0)
  }

  /** Reads an optionally negative decimal numeral. */
  function ParseInt(s: string): int
  {
    if |s| > 0 && s[0] == '-' then -(ParseNat(s[1..]) as int) else ParseNat(s)
  }

  /** Index of the first comma in `s`, or |s| if there is none. */
  function CommaIndex(s: string): (k: nat)
    ensures k <= |s|
    ensures k < |s| ==> s[k] == ','
    ensures forall i :: 0 <= i < k ==> s[i] != ','
  {
    if |s| == 0 then 0
    else if s[0] == ',' then 0
    else 1 + CommaIndex(s[1..])
  }

  /** Reads a string of the form "(row,col)"; `None` when the string does not have that shape. */
  function ParseRepr(s: string): Option<Position>
  {
    if |s| < 2 || s[0] != '(' || s[|s| - 1] != ')' then None
    else
      var inner := s[1..|s| - 1];
      var k := CommaIndex(inner);
      if k == |inner| then None
      else Some(Position(ParseInt(inner[..k]), ParseInt(inner[k + 1..])))
  }

  lemma {:induction false} ParseNatRoundTrip(n: nat)
    ensures ParseNat(NatToString(n)) == n
  {
    var s := NatToString(n);
    if n >= 10 {
      ParseNatRoundTrip(n / 10);
      assert s[..|s| - 1] == NatToString(n / 10);
      assert s[|s| - 1] == DigitChar(n % 10);
    }
  }

  lemma ParseIntRoundTrip(i: int)
    ensures ParseInt(IntToString(i)) == i
  {
    if i < 0 {
      var s := "-" + NatToString(-i);
      assert s[1..] == NatToString(-i);
      ParseNatRoundTrip(-i);
    } else {
      ParseNatRoundTrip(i);
      assert IsDigit(NatToString(i)[0]);
    }
  }

  /** The string form never contains a comma, so the comma of "(row,col)" is the separator. */
  lemma IntToStringHasNoComma(i: int)
    ensures forall k :: 0 <= k < |IntToString(i)| ==> IntToString(i)[k] != ','
  {
    if i < 0 {
      var s := NatToString(-i);
      assert forall k :: 0 <= k < |s| ==> IsDigit(s[k]);
    }
  }

  /** The string form determines the position: parsing `Repr(p)` gives back `p`. */
  lemma ReprRoundTrip(p: Position)
    ensures ParseRepr(Repr(p)) == Some(p)
  {
    var a := IntToString(p.row);
    var b := IntToString(p.col);
    var s := Repr(p);
    var inner := s[1..|s| - 1];
    assert inner == a + "," + b;
    IntToStringHasNoComma(p.row);
    assert forall i :: 0 <= i < |a| ==> inner[i] != ',';
    CommaIndexAfter(inner, |a|);
    assert inner[..|a|] == a;
    assert inner[|a| + 1..] == b;
    ParseIntRoundTrip(p.row);
    ParseIntRoundTrip(p.col);
  }

  lemma CommaIndexAfter(s: string, k: nat)
    requires k < |s| && s[k] == ','
    requires forall i :: 0 <= i < k ==> s[i] != ','
    ensures CommaIndex(s) == k
  {
  }

  /** The test's example: position (2,3) prints as "(2,3)". */
  lemma ReprExample()
    ensures Repr(Position(2, 3)) == "(2,3)"
  {
  }
}

=== FILE: walks.dfy ===
/** Paths through a grid world: the moves a search may make and the facts about them that
    do not depend on how a path was found. */
module Walks {
  import opened Wrappers
  import opened Positions
  import opened Grids

  /** One search move: to a 4-adjacent cell that is in bounds and not a wall. The cell moved
      from is not checked, exactly as the search only filters the cells it discovers. */
  predicate Edge(w: GridWorld, u: Position, v: Position)
  {
    Adjacent(u, v) && Open(w, v)
  }

  /** A non-empty sequence of cells joined by moves. */
  predicate IsWalk(w: GridWorld, s: seq<Position>)
  {
    |s| >= 1 && forall i :: 0 <= i < |s| - 1 ==> Edge(w, s[i], s[i + 1])
  }

  /** A walk from `from` to `to`, both ends included. */
  predicate IsPath(w: GridWorld, from: Position, to: Position, s: seq<Position>)
  {
    IsWalk(w, s) && s[0] == from && s[|s| - 1] == to
  }

  predicate NoRepeats(s: seq<Position>)
  {
    forall i, j :: 0 <= i < j < |s| ==> s[i] != s[j]
  }

  ghost predicate Reachable(w: GridWorld, from: Position, to: Position)
  {
    exists s :: IsPath(w, from, to, s)
  }

  /** No path from `from` to `to` uses fewer than `d` moves. */
  ghost predicate NoShorterPath(w: GridWorld, from: Position, to: Position, d: int)
  {
    forall s :: IsPath(w, from, to, s) ==> |s| - 1 >= d
  }

  /** What a path promises its user: it starts and ends where asked, consecutive cells
      differ by one in exactly one coordinate, and every cell after the first is in bounds
      and passable. */
  lemma PathShape(w: GridWorld, from: Position, to: Position, s: seq<Position>)
    requires IsPath(w, from, to, s)
    ensures s[0] == from && s[|s| - 1] == to
    ensures forall i :: 0 <= i < |s| - 1 ==>
      (Abs(s[i].row - s[i + 1].row) == 1 && s[i].col == s[i + 1].col) ||
      (s[i].row == s[i + 1].row && Abs(s[i].col - s[i + 1].col) == 1)
    ensures forall i :: 1 <= i < |s| ==> InBounds(w, s[i]) && Passable(w, s[i])
  {
    forall i | 1 <= i < |s|
      ensures InBounds(w, s[i]) && Passable(w, s[i])
    {
      assert Edge(w, s[i - 1], s[i]);
    }
  }

  /** The tail of a path from `s[1]` is again a path. */
  lemma PathTail(w: GridWorld, from: Position, to: Position, s: seq<Position>)
    requires IsPath(w, from, to, s) && |s| >= 2
    ensures IsPath(w, s[1], to, s[1..])
  {
    forall i | 0 <= i < |s[1..]| - 1
      ensures Edge(w, s[1..][i], s[1..][i + 1])
    {
      assert Edge(w, s[i + 1], s[i + 2]);
    }
  }

  /** A prefix of a path ending at `s[k]` is a path to `s[k]`. */
  lemma PathPrefix(w: GridWorld, from: Position, to: Position, s: seq<Position>, k: nat)
    requires IsPath(w, from, to, s) && k < |s|
    ensures IsPath(w, from, s[k], s[..k + 1])
  {
    var p := s[..k + 1];
    assert forall i :: 0 <= i < |p| ==> p[i] == s[i];
  }

  /** Each move changes the Manhattan distance by at most one, so a path needs at least
      Manhattan distance many moves. */
  lemma {:induction false} PathLowerBound(w: GridWorld, from: Position, to: Position, s: seq<Position>)
    requires IsPath(w, from, to, s)
    ensures |s| >= Manhattan(from, to) + 1
    decreases |s|
  {
    if |s| >= 2 {
      PathTail(w, from, to, s);
      PathLowerBound(w, s[1], to, s[1..]);
      assert Edge(w, s[0], s[1]);
    }
  }

  /** The last move of a path enters the goal from one of its four neighbours, and that
      neighbour is itself in bounds and passable unless it is the first cell. */
  lemma LastMoveIntoGoal(w: GridWorld, from: Position, to: Position, s: seq<Position>)
    requires IsPath(w, from, to, s) && |s| >= 2
    ensures Open(w, to)
    ensures s[|s| - 2] in Neighbors4(to)
    ensures |s| > 2 ==> Open(w, s[|s| - 2])
  {
    var u := s[|s| - 2];
    assert Edge(w, u, to);
    AdjacentSymmetric(u, to);
    NeighborsAreAdjacent(to, u);
    if |s| > 2 {
      assert Edge(w, s[|s| - 3], u);
    }
  }

  /** A goal other than the start that is a wall or outside the grid cannot be reached. */
  lemma ClosedGoalUnreachable(w: GridWorld, from: Position, to: Position)
    requires from != to && !Open(w, to)
    ensures !Reachable(w, from, to)
  {
    if Reachable(w, from, to) {
      var s :| IsPath(w, from, to, s);
      LastMoveIntoGoal(w, from, to, s);
      assert false;
    }
  }

  /** Walling in all four neighbours of the goal makes it unreachable from every start that
      is neither the goal nor one of those four walls. Only cardinal moves exist, so there is
      no diagonal way in. */
  lemma EnclosedGoalUnreachable(w: GridWorld, from: Position, to: Position)
    requires forall k :: 0 <= k < 4 ==> !Passable(w, Neighbors4(to)[k])
    requires from != to && from !in Neighbors4(to)
    ensures !Reachable(w, from, to)
  {
    if Reachable(w, from, to) {
      var s :| IsPath(w, from, to, s);
      LastMoveIntoGoal(w, from, to, s);
      assert false;
    }
  }

  /** The enclosure does not keep out a start placed on one of the enclosing walls: the
      search does not check the start cell, so it steps straight into the goal. */
  lemma StartOnEnclosingWallReachesGoal(w: GridWorld, from: Position, to: Position)
    requires from in Neighbors4(to) && Open(w, to)
    ensures Reachable(w, from, to)
  {
    NeighborsAreAdjacent(to, from);
    AdjacentSymmetric(to, from);
    assert IsPath(w, from, to, [from, to]);
  }

  /** The search does not check the start cell itself: from a start that is a wall, an open
      neighbour is still reachable in one move. */
  lemma WalledStartStillMoves(w: GridWorld, from: Position, to: Position)
    requires !Passable(w, from) && Adjacent(from, to) && Open(w, to)
    ensures Reachable(w, from, to)
  {
    assert IsPath(w, from, to, [from, to]);
  }

  // ----- Shortest paths on a grid without walls ----------------------------------------------

  /** One move from `a` towards `b`: rows first, then columns. */
  function Toward(a: Position, b: Position): (r: Position)
    requires a != b
    ensures Adjacent(a, r)
    ensures Manhattan(r, b) + 1 == Manhattan(a, b)
  {
    if a.row < b.row then Position(a.row + 1, a.col)
    else if a.row > b.row then Position(a.row - 1, a.col)
    else if a.col < b.col then Position(a.row, a.col + 1)
    else Position(a.row, a.col - 1)
  }

  /** The staircase route from `a` to `b`: a sequence of Manhattan-distance-plus-one cells,
      each adjacent to the next. */
  function Staircase(a: Position, b: Position): (s: seq<Position>)
    ensures |s| == Manhattan(a, b) + 1
    ensures s[0] == a && s[|s| - 1] == b
    ensures forall i :: 0 <= i < |s| - 1 ==> Adjacent(s[i], s[i + 1])
    decreases Manhattan(a, b)
  {
    if a == b then [a] else [a] + Staircase(Toward(a, b), b)
  }

  /** On a grid without walls the staircase between two in-bounds cells is a path, so the
      shortest path between them has exactly Manhattan distance plus one cells. */
  lemma {:induction false} StaircaseIsPath(w: GridWorld, a: Position, b: Position)
    requires w.walls == {} && InBounds(w, a) && InBounds(w, b)
    ensures IsPath(w, a, b, Staircase(a, b))
    decreases Manhattan(a, b)
  {
    if a != b {
      var t := Toward(a, b);
      StaircaseIsPath(w, t, b);
      var s := Staircase(a, b);
      assert s == [a] + Staircase(t, b);
      forall i | 0 <= i < |s| - 1
        ensures Edge(w, s[i], s[i + 1])
      {
        if i > 0 {
          assert s[i] == Staircase(t, b)[i - 1];
          assert Edge(w, Staircase(t, b)[i - 1], Staircase(t, b)[i]);
        }
      }
    }
  }

  /** A world built from its dimensions alone, both positive, has its default start (0,0) and
      goal (rows-1, cols-1) in bounds whatever the walls; without walls the goal is reachable,
      along a path of rows + cols - 1 cells. */
  lemma DefaultWorldIsSolvable(rows: int, cols: int, walls: Option<set<Position>>)
    requires rows > 0 && cols > 0
    ensures var w := NewWorld(rows, cols, walls, None, None);
            InBounds(w, w.start) && InBounds(w, w.goal)
    ensures var w := NewWorld(rows, cols, None, None, None);
            && IsPath(w, w.start, w.goal, Staircase(w.start, w.goal))
            && |Staircase(w.start, w.goal)| == rows + cols - 1
            && Reachable(w, w.start, w.goal)
  {
    var w := NewWorld(rows, cols, None, None, None);
    StaircaseIsPath(w, w.start, w.goal);
  }
}

=== FILE: wrappers.dfy ===
/** The optional-value datatype used wherever the source returns or stores `None`. */
module Wrappers {

  /** `None` stands for Python's `None`; `Some(v)` for a present value. */
  datatype Option<+T> = None | Some(value: T)
}
